=== FILE: README.md ===
# secp256k1 field elements in Dafny

A model of the finite-field element of the Rust crate `secp256k1`. The
crate has two copies of the type: `src/lib.rs` and `src/fieldelement.rs`.
A `FieldElement` pairs a value `num` with an `order`, both `u32`. Every
operation works modulo the order:

- a checked constructor `new`;
- `+`, `-` and `*`;
- `pow` with a signed exponent, computed by square-and-multiply;
- `/` as multiplication by `pow(-1)`;
- an equality `eq`.

The two files agree except in `pow`:

- `src/lib.rs` maps a negative exponent `e` to `order - 1 + e`.
- `src/fieldelement.rs` first reduces every exponent with Rust's truncating
  `%` modulo `order - 1`.

Modules:

- `Errors`: the `Outcome` of an operation. It is a value, a `FieldError`
  from `new`, or a panic with its reason: order mismatch, overflow,
  remainder by zero, or a failed `try_from(..).unwrap()`.
- `Machine`: `u32` and `i32` as subset types of `int`. Their arithmetic
  panics where a debug build of the crate panics. It also gives Rust's
  truncating remainder on `i32`.
- `ModMath`: modular arithmetic, powers and binomial coefficients. It proves
  Euclid's lemma and Fermat's little theorem (via the binomial theorem).
- `Field`: the datatype, `new`, `+`, `-`, `*`, `eq`, and the
  square-and-multiply loop shared by both files. The loop is given both as
  a recursive function and as an imperative method.
- `Lib`: `pow` and `/` of `src/lib.rs`.
- `Fieldelement`: `pow` and `/` of `src/fieldelement.rs`, plus a corrected
  `pow`.
- `Tests`: the unit tests of `src/lib.rs`, each as a lemma about concrete
  elements.

Panics are results, not preconditions: every operation is total on all
`u32`/`i32` inputs. The contracts of `new`, `+`, `-`, `*` and of both
exponent steps say exactly which inputs panic. The contracts of `pow` and `/`
name the panics of the exponent step and of order 0. For orders up to 2^16,
the lemmas give their panic-free results. Primality of
the order is never checked by the crate. The lemmas that need it (inverses,
Fermat) assume it in their requires.

## Model

| member | source | states |
|---|---|---|
| Field.New | src/lib.rs:19-30 | Accepts exactly the values below the order and stores both fields unchanged. A rejection is a `FieldError`, except for order 0, where formatting `order - 1` in the message overflows. |
| Field.NewRoundTrip | src/lib.rs:19-30 | Rebuilding any in-range element with `new` gives the same element back. |
| Field.Add | src/lib.rs:65-78 | Different orders panic. Otherwise the result is in range and equals the true sum modulo the order. It overflows exactly when `num + num` exceeds `u32::MAX`. Order 0 panics. |
| Field.Sub | src/lib.rs:80-95 | Different orders panic. Otherwise the result is in range and equals the true (possibly negative) difference modulo the order. For a nonzero order it panics exactly when `num + order` overflows or the subtrahend exceeds it. Order 0 panics. |
| Field.Mul | src/lib.rs:97-112 | Different orders panic. Otherwise the result is in range and equals the product modulo the order. For a nonzero order it panics exactly when the `u32` product overflows. Order 0 panics. |
| Field.AddSubCancel | src/lib.rs:65-95 | For in-range elements of one field with order up to 2^31, `a + b` does not panic and `(a + b) - b == a`. |
| Field.SubAddCancel | src/lib.rs:65-95 | For in-range elements of one field with order up to 2^31, `a - b` does not panic and `(a - b) + b == a`. |
| Field.SubSelfIsZero | src/lib.rs:80-95 | For a nonzero order with `num + order` fitting in a `u32` (exactly when `a - a` does not overflow), `a - a` is the zero element of a's field. |
| Field.AddZero | src/lib.rs:65-78 | For an in-range element, adding the zero of its field gives the element back. |
| Field.AddCommutes | src/lib.rs:65-78 | `a + b` and `b + a` have the same outcome for all inputs, panics included. |
| Field.MulCommutes | src/lib.rs:97-112 | `a * b` and `b * a` have the same outcome for all inputs, panics included. |
| Field.AddAssociates | src/lib.rs:65-78 | For in-range elements of one field with order up to 2^31, `(a + b) + c == a + (b + c)`, with neither inner sum panicking. |
| Field.MulAssociates | src/lib.rs:97-112 | For in-range elements of one field with order up to 2^16, `(a * b) * c == a * (b * c)`, with neither inner product panicking. |
| Field.Eq | src/lib.rs:122-126 | As written, `eq` holds exactly when the values are equal; the orders are never compared. |
| Field.EqFixed | src/lib.rs:122-126 | The intended equality holds exactly when both value and order agree. |
| Field.EqIgnoresOrder | src/lib.rs:124 | Equal values in different fields compare equal under `eq`, but not under the intended equality. |
| Field.Loop | src/lib.rs:41-50 | The loop never yields a `FieldError`. With a zero exponent it returns `res` unchanged. After at least one iteration its result is below the order. With order 0 and a positive exponent it panics. The value it computes is stated by `Field.LoopComputesPower`. |
| Field.LoopComputesPower | src/lib.rs:41-50 | Whenever the loop finishes, the result is `res * num^exp` modulo the order. With a zero exponent it is `res` itself. |
| Field.LoopRunsToEnd | src/lib.rs:41-50 | With order in [1, 2^16] and operands below 2^16, no product overflows and the loop finishes. With order 0 and a positive exponent it panics. |
| Field.LoopClosedForm | src/lib.rs:41-55 | For an order in [2, 2^16] and a base below the order, the loop started from `res = 1` returns `num^exp mod order`. |
| Field.SquareAndMultiply | src/lib.rs:41-55 | The imperative loop returns the same outcome as the recursive model. That outcome is `num^exp mod order` (1 for exponent 0), and it does not panic for orders in [1, 2^16] and a base below 2^16. |
| Lib.Exponent | src/lib.rs:33-39 | A non-negative exponent is kept. A negative one becomes `order - 1 + e`. The conversions panic when the order exceeds `i32::MAX` or when that sum is negative. For order 0 with `i32::MIN`, the `i32` addition overflows first. |
| Lib.Pow | src/lib.rs:32-56 | The result stays in the base's field and is in range for orders of 2 or more. A negative exponent below `1 - order`, or any negative exponent with an order above `i32::MAX`, panics in the conversion. The exception is order 0 with `i32::MIN`, where the `i32` addition overflows first. Order 0 with any nonzero exponent panics. The value is stated by `Lib.PowNonNegative` and `Lib.PowNegative`. |
| Lib.Div | src/lib.rs:114-120 | Dividing across fields panics. A divisor of order 0, 1 or above `i32::MAX` panics in the conversion of `pow(-1)`. A successful quotient is an in-range element of the dividend's field. |
| Lib.PowNonNegative | src/lib.rs:32-56 | For an in-range base, an order in [2, 2^16] and a non-negative exponent, `pow` is `num^e mod order`. |
| Lib.PowNegative | src/lib.rs:32-56 | For an in-range base, an order in [2, 2^16] and a negative exponent: when `e >= 1 - order`, `pow` is `num^(order-1+e) mod order`; below that bound it panics in the conversion. |
| Lib.PowZeroOnOrderOne | src/lib.rs:41-55 | With order 1, `pow(0)` returns value 1, which is outside the field's range. |
| Lib.PowStep | src/lib.rs:32-56 | For an in-range base, an order in [2, 2^16] and `0 <= e < i32::MAX`, `pow(e)` does not panic and `pow(e + 1)` is `pow(e) * a`. |
| Lib.PowNegativeIsInverse | src/lib.rs:32-56 | For a prime order up to 2^16 and a nonzero in-range base, `pow(-k) * pow(k) == 1` for every k from 1 to order - 1. |
| Lib.DivIsMulByPower | src/lib.rs:114-120 | For in-range elements of one field with order in [2, 2^16], `a / b` is `a` times `b^(order-2) mod order`. |
| Lib.DivMulCancel | src/lib.rs:114-120 | For a prime order up to 2^16, in-range elements of that field and a nonzero divisor, `a / b` does not panic and `(a / b) * b == a`. |
| Lib.DivByZero | src/lib.rs:114-120 | For an in-range dividend and an order in [3, 2^16], division by zero is not guarded: it returns zero instead of panicking. |
| Machine.TruncRem | src/fieldelement.rs:35 | Rust's signed `%`: the remainder is smaller in magnitude than the divisor, has the sign of the dividend, and differs from it by a multiple of the divisor. |
| Machine.TruncRemShift | src/fieldelement.rs:35-38 | For a positive divisor, adding the divisor to a negative truncated remainder gives the Euclidean residue. |
| Fieldelement.Exponent | src/fieldelement.rs:32-41 | For orders in [2, i32::MAX], the loop's exponent is the Euclidean residue of the exponent modulo `order - 1`. Order 1 panics (remainder by zero). Orders above `i32::MAX` panic (conversion). Order 0 gives 0, except that `i32::MIN % -1` panics. |
| Fieldelement.Pow | src/fieldelement.rs:30-58 | The result stays in the base's field and is in range for orders of 2 or more. Order 1 panics with a remainder by zero, and orders above `i32::MAX` panic in the conversion. Order 0 returns the out-of-range value 1, except that `i32::MIN % -1` panics. The value is stated by `Fieldelement.PowReduces`. |
| Fieldelement.PowFixed | src/fieldelement.rs:30-58 | The corrected `pow` keeps the base's field and is in range for orders of 2 or more. Except for a zero base with a non-negative exponent, order 1 panics with a remainder by zero, and orders above `i32::MAX` panic in the conversion. Its value is stated by `Fieldelement.PowFixedIsPower`, and where it departs from `pow` by `Fieldelement.PowFixedDiffersOnlyOnZeroBase`. |
| Fieldelement.Div | src/fieldelement.rs:116-122 | Dividing across fields panics. A divisor of order 1 panics with a remainder by zero, one above `i32::MAX` panics in the conversion, and one of order 0 panics. A successful quotient is an in-range element of the dividend's field. |
| Fieldelement.PowPeriodic | src/fieldelement.rs:34-41 | For orders of 1 or more, exponents that differ by a multiple of `order - 1`, both within `i32`, give the same outcome. |
| Fieldelement.PowReduces | src/fieldelement.rs:30-58 | For an in-range base and an order in [2, 2^16], `pow(e)` is `num^(e mod (order-1)) mod order` for every exponent, negative ones included. |
| Fieldelement.PowNonNegative | src/fieldelement.rs:30-58 | For a prime order up to 2^16, a nonzero in-range base and a non-negative exponent, the reduction is sound: `pow(e)` is `num^e mod order`. |
| Fieldelement.PowZeroBase | src/fieldelement.rs:35 | For a zero base and an order p in [2, 2^16], `pow(p - 1)` returns 1, although `0^(p-1) mod p` is 0 and the `src/lib.rs` version returns 0. |
| Fieldelement.PowFixedIsPower | src/fieldelement.rs:30-58 | For a prime order up to 2^16, an in-range base (zero included) and a non-negative exponent, the corrected `pow` returns `num^e mod order`. |
| Fieldelement.PowFixedDiffersOnlyOnZeroBase | src/fieldelement.rs:34-41 | The corrected `pow` departs from the written one only for a zero base with a non-negative exponent. |
| Fieldelement.PowAgreesWithLib | src/fieldelement.rs:30-58 | For a prime order up to 2^16 and a nonzero in-range base, the two files' `pow` agree wherever the `src/lib.rs` one does not panic. |
| Fieldelement.DivAgreesWithLib | src/fieldelement.rs:116-122 | For every order of 2 or more, the two files' `/` have the same outcome. |
| Fieldelement.DivMulCancel | src/fieldelement.rs:116-122 | For a prime order up to 2^16, in-range elements of that field and a nonzero divisor, `a / b` does not panic and `(a / b) * b == a`. |
| Tests.NewExamples | src/lib.rs:141-150 | `new(10, 13)` succeeds with value 10, and `new(20, 13)` is an error. |
| Tests.EqExamples | src/lib.rs:160-167 | An element equals itself and differs from another value of its field. |
| Tests.AddExamples | src/lib.rs:169-191 | The sums of the `add` tests hold, and adding across orders 13 and 19 panics. |
| Tests.SubExamples | src/lib.rs:193-215 | The differences of the `sub` tests hold, and subtracting across orders 57 and 46 panics. |
| Tests.MulExamples | src/lib.rs:217-244 | The products of the `mul` tests hold. `new(12, 10)` is an error, and multiplying across orders 97 and 87 panics. |
| Tests.PowExamples | src/lib.rs:246-257 | `3^3 = 1` in the field of order 13, and `2 * 7^-1 = 3` in the field of order 19. |
| Tests.NegativePowExamples | src/lib.rs:259-269 | `2 * 7^-2 = 14` and `7 * 5^-1 = 9` in the field of order 19. |
| Tests.NegativePowExample31 | src/lib.rs:271-275 | `11 * 4^-4 = 13` in the field of order 31. |
| Tests.DivExample1 | src/lib.rs:279-283 | `3 / 24 = 4` modulo 31, in both files. |
| Tests.DivExample2 | src/lib.rs:285-288 | `2 / 7 = 3` modulo 19, in both files. |
| Tests.DivExample3 | src/lib.rs:290-293 | `7 / 5 = 9` modulo 19, in both files. |

`src/fieldelement.rs:15-28` and `src/fieldelement.rs:67-114` define `new`, `+`, `-` and `*`, and `src/fieldelement.rs:124-128` defines `eq`. These are the same code as in `src/lib.rs`, so the `Field` rows above cover both files. The loop at `src/fieldelement.rs:43-51` is `Field.Loop` as well.

## Left out

- The `Display` implementations and the text of error and panic messages. Only the kind of error or panic is modelled.
- `FieldError`'s `Default` and `Display` in `src/error.rs`. They only build message text.
- Release-build wrap-around. The model follows a debug build, where `u32`/`i32` overflow panics.
- The `it_works` test (`2 + 2 == 4`). It does not involve the field.
- The tests' `println!` calls.
- No multi-limb integer type or hexadecimal parser appears in `src/lib.rs`, `src/fieldelement.rs` or `src/error.rs`, so none is modelled.
- Field.AddAssociates, Field.AddSubCancel, Field.SubAddCancel: stated for orders up to 2^31. Above that, `num + num` can overflow `u32`, and the operations' own contracts give the exact panic condition.
- Field.MulAssociates, Field.LoopRunsToEnd, Field.LoopClosedForm: stated for orders up to 2^16. Above that, products of in-range values can overflow `u32`. `Field.Loop` still models every order exactly.
- Lib.PowNonNegative, Lib.PowNegative, Lib.PowStep, Lib.PowNegativeIsInverse, Lib.DivIsMulByPower, Lib.DivMulCancel, Lib.DivByZero: stated for orders up to 2^16, for the same overflow reason.
- Field.LoopClosedForm, Lib.PowNonNegative, Lib.PowNegative, Lib.PowStep, Lib.DivIsMulByPower, Fieldelement.PowReduces: stated for orders of 2 or more. With order 1, `pow(0)` returns 1 rather than `0^0 mod 1 = 0` (see Lib.PowZeroOnOrderOne), and order 0 panics.
- Lib.PowStep: stated for non-negative exponents only. A negative exponent is mapped to `order - 1 + e`, so `pow(e + 1) == pow(e) * a` fails for a zero base at `e = -1`.
- Fieldelement.PowPeriodic: stated for orders of 1 or more. At order 0 the reduction is modulo -1, and only `i32::MIN` panics there.
- Fieldelement.PowReduces, Fieldelement.PowNonNegative, Fieldelement.PowFixedIsPower, Fieldelement.PowAgreesWithLib, Fieldelement.DivMulCancel: stated for orders up to 2^16, for the same overflow reason.
- Lib.Pow, Fieldelement.Pow, Fieldelement.PowFixed: their contracts give the result's field and range and the panics of the exponent step. For PowFixed these are the panics of orders 1 and above `i32::MAX`, outside the zero-base case it corrects. Their values are stated by the lemmas in the table, for orders up to 2^16. Which larger inputs overflow inside the loop is not characterized.
- Lib.Div, Fieldelement.Div: the same holds for `/`. Its value is stated by `Lib.DivIsMulByPower` and `Fieldelement.DivAgreesWithLib`.
- Field.Loop: its contract gives the range of the result and the order-0 panic. The power it computes is stated by `Field.LoopComputesPower`, because proving it needs induction over the whole loop.
- The bit test `exp & 1` and the shift `exp >>= 1` are modelled as `exp % 2` and `exp / 2`. These are equal on `u32`.

## Findings

| source | as written | input that shows it | evidently intended | confidence | as-written member | corrected member |
|---|---|---|---|---|---|---|
| src/lib.rs:124 | `self.order == self.order` compares the order with itself, so elements of different fields with equal values are equal | `FieldElement(5, 13) == FieldElement(5, 17)` is true | compare `self.order == other.order` | high; not executed | Field.EqIgnoresOrder | Field.EqFixed |
| src/fieldelement.rs:35 | the exponent is reduced modulo `order - 1` for every base, which Fermat's little theorem justifies only for a nonzero base | `FieldElement(0, 13).pow(12)` returns 1, where `0^12 = 0` | no reduction, or none for a zero base with a non-negative exponent | high; not executed | Fieldelement.PowZeroBase | Fieldelement.PowFixedIsPower |

=== FILE: errors.dfy ===
/** Failure outcomes of the field-element operations.

    The crate has one recoverable error, `FieldError`, returned by the checked
    constructor. Every other failure is a panic: a field mismatch in an operator,
    an integer overflow (the crate's tests run with overflow checks on), a
    remainder by zero, or an `unwrap` of a failed integer conversion.
    The message text carried by `FieldError` is not modelled. */
module Errors {

  /** Why a call panics instead of returning. */
  datatype Panic =
    | OrderMismatch     // the two operands of `+`, `-`, `*` have different orders
    | Overflow          // checked integer arithmetic left the range of its type
    | RemainderByZero   // `%` with a zero divisor
    | ConversionFailed  // `try_from` / `try_into` followed by `unwrap` failed

  /** The outcome of a call: a value, the recoverable `FieldError`, or a panic.
      Failure-compatible, so `:-` propagates `FieldError` and panics. */
  datatype Outcome<+T> = Ok(value: T) | FieldError | Panicked(reason: Panic) {

    predicate IsFailure() {
      !Ok?
    }

    function PropagateFailure<U>(): Outcome<U>
      requires IsFailure()
    {
      if FieldError? then FieldError else Panicked(reason)
    }

    function Extract(): T
      requires Ok?
    {
      value
    }
  }
}

=== FILE: field.dfy ===
/** The finite-field element shared by `src/lib.rs` and `src/fieldelement.rs`.

    Both files declare the same struct, the same checked constructor, the same
    `+`, `-`, `*` operators, the same `eq` and the same square-and-multiply loop
    inside `pow`; they differ only in how `pow` normalises its exponent (modules
    `Lib` and `Fieldelement`). Every operator returns an `Outcome`, so the panics
    of the crate are visible results instead of preconditions. */
module Field {
  import opened Errors
  import opened Machine
  import opened ModMath

  /** An element `num` of the field of integers modulo `order`. */
  datatype FieldElement = FieldElement(num: u32, order: u32) {
    /** The range invariant the checked constructor establishes. */
    predicate Valid() {
      num < order
    }
  }

  /** `FieldElement::new`: accepts exactly the values below `order`.
      The rejection formats its message with `order - 1`, a `u32` subtraction
      that panics when `order` is 0. */
  function New(num: u32, order: u32): (r: Outcome<FieldElement>)
    ensures r.Ok? <==> num < order
    ensures r.Ok? ==> r.value.num == num && r.value.order == order && r.value.Valid()
    ensures !r.Ok? && order > 0 ==> r == FieldError
    ensures order == 0 ==> r == Panicked(Overflow)
  {
    if num >= order then
      var _ :- SubU32(order, 1);
      FieldError
    else
      Ok(FieldElement(num, order))
  }

  /** `x * y % order` on `u32`, as written in `mul` and in the loop of `pow`. */
  function MulMod(x: u32, y: u32, order: u32): Outcome<u32> {
    var p :- MulU32(x, y);
    RemU32(p, order)
  }

  /** `impl Add`: the sum modulo the shared order. */
  function Add(a: FieldElement, b: FieldElement): (r: Outcome<FieldElement>)
    ensures a.order != b.order ==> r == Panicked(OrderMismatch)
    ensures a.order == b.order && a.order > 0 ==> (r.Ok? <==> a.num + b.num <= U32_MAX)
    ensures a.order == b.order == 0 ==> r.Panicked?
    ensures r.Ok? ==> r.value.order == a.order && r.value.Valid()
    ensures r.Ok? ==> r.value.num == (a.num + b.num) % a.order
  {
    if a.order != b.order then
      Panicked(OrderMismatch)
    else
      var s :- AddU32(a.num, b.num);
      var n :- RemU32(s, a.order);
      Ok(FieldElement(n, a.order))
  }

  /** `impl Sub`: adds `order` before subtracting so that the `u32`
      difference does not go below zero; the result is the true difference
      modulo the order. */
  function Sub(a: FieldElement, b: FieldElement): (r: Outcome<FieldElement>)
    ensures a.order != b.order ==> r == Panicked(OrderMismatch)
    ensures a.order == b.order && a.order > 0 ==>
              (r.Ok? <==> a.num + a.order <= U32_MAX && b.num <= a.num + a.order)
    ensures a.order == b.order == 0 ==> r.Panicked?
    ensures r.Ok? ==> r.value.order == a.order && r.value.Valid()
    ensures r.Ok? ==> r.value.num == (a.num - b.num) % a.order
  {
    if a.order != b.order then
      Panicked(OrderMismatch)
    else
      var s :- AddU32(a.num, a.order);
      var d :- SubU32(s, b.num);
      var n :- RemU32(d, a.order);
      ModAddMultiple(1, a.order, a.num - b.num);
      Ok(FieldElement(n, a.order))
  }

  /** `impl Mul`: the product modulo the shared order. */
  function Mul(a: FieldElement, b: FieldElement): (r: Outcome<FieldElement>)
    ensures a.order != b.order ==> r == Panicked(OrderMismatch)
    ensures a.order == b.order && a.order > 0 ==> (r.Ok? <==> a.num * b.num <= U32_MAX)
    ensures a.order == b.order == 0 ==> r.Panicked?
    ensures r.Ok? ==> r.value.order == a.order && r.value.Valid()
    ensures r.Ok? ==> r.value.num == (a.num * b.num) % a.order
  {
    if a.order != b.order then
      Panicked(OrderMismatch)
    else
      var n :- MulMod(a.num, b.num, a.order);
      Ok(FieldElement(n, a.order))
  }

  /** `PartialEq::eq` as written: its second conjunct compares `self.order`
      with itself, so only the values are compared. */
  function Eq(a: FieldElement, b: FieldElement): (r: bool)
    ensures r <==> a.num == b.num
  {
    a.num == b.num && a.order == a.order
  }

  /** The equality the crate evidently intends: both fields compared. */
  function EqFixed(a: FieldElement, b: FieldElement): (r: bool)
    ensures r <==> a == b
  {
    a.num == b.num && a.order == b.order
  }

  // ---------------------------------------------------------------------------
  // Laws of the operators

  /** The constructor rebuilds any valid element unchanged. */
  lemma NewRoundTrip(a: FieldElement)
    requires a.Valid()
    ensures New(a.num, a.order) == Ok(a)
  {
  }

  /** Below 2^31 neither `+` nor `-` of two valid elements overflows. */
  const ADD_SAFE_ORDER: int := 0x8000_0000

  /** Subtracting what was added gives back the original element. */
  lemma AddSubCancel(a: FieldElement, b: FieldElement)
    requires a.Valid() && b.Valid() && a.order == b.order <= ADD_SAFE_ORDER
    ensures Add(a, b).Ok? && Sub(Add(a, b).value, b) == Ok(a)
  {
    var x: int, y: int := a.num, b.num;
    ModAddLeft(x + y, -y, a.order);
    ModUnique(x, a.order, 0, x);
  }

  /** Adding back what was subtracted gives back the original element. */
  lemma SubAddCancel(a: FieldElement, b: FieldElement)
    requires a.Valid() && b.Valid() && a.order == b.order <= ADD_SAFE_ORDER
    ensures Sub(a, b).Ok? && Add(Sub(a, b).value, b) == Ok(a)
  {
    var x: int, y: int := a.num, b.num;
    ModAddLeft(x - y, y, a.order);
    ModUnique(x, a.order, 0, x);
  }

  /** `a - a` is the zero of the field. */
  lemma SubSelfIsZero(a: FieldElement)
    requires a.order > 0 && a.num + a.order <= U32_MAX
    ensures Sub(a, a) == Ok(FieldElement(0, a.order))
  {
    ModSmall(0, a.order);
  }

  /** Zero is neutral for `+`. */
  lemma AddZero(a: FieldElement)
    requires a.Valid()
    ensures Add(a, FieldElement(0, a.order)) == Ok(a)
  {
    ModSmall(a.num, a.order);
  }

  /** `+` is commutative, panics included. */
  lemma AddCommutes(a: FieldElement, b: FieldElement)
    ensures Add(a, b) == Add(b, a)
  {
  }

  /** `*` is commutative, panics included. */
  lemma MulCommutes(a: FieldElement, b: FieldElement)
    ensures Mul(a, b) == Mul(b, a)
  {
  }

  /** `+` is associative on valid elements of one field. */
  lemma AddAssociates(a: FieldElement, b: FieldElement, c: FieldElement)
    requires a.Valid() && b.Valid() && c.Valid()
    requires a.order == b.order == c.order <= ADD_SAFE_ORDER
    ensures Add(a, b).Ok? && Add(b, c).Ok?
    ensures Add(Add(a, b).value, c) == Add(a, Add(b, c).value)
  {
    var x: int, y: int, z: int, m: int := a.num, b.num, c.num, a.order;
    AddValue(a, b);
    AddValue(b, c);
    var ab, bc := Add(a, b).value, Add(b, c).value;
    AddValue(ab, c);
    AddValue(a, bc);
    ModAddAssociates(x, y, z, m, ab.num, bc.num);
  }

  /** The sum of two valid elements of one field below 2^31. */
  lemma AddValue(a: FieldElement, b: FieldElement)
    requires a.Valid() && b.Valid() && a.order == b.order <= ADD_SAFE_ORDER
    ensures Add(a, b) == Ok(FieldElement((a.num + b.num) % a.order, a.order))
  {
  }

  /** Below 2^16 the product of two valid elements does not overflow. */
  const MUL_SAFE_ORDER: int := 0x1_0000

  /** `*` is associative on valid elements of one field. */
  lemma MulAssociates(a: FieldElement, b: FieldElement, c: FieldElement)
    requires a.Valid() && b.Valid() && c.Valid()
    requires a.order == b.order == c.order <= MUL_SAFE_ORDER
    ensures Mul(a, b).Ok? && Mul(b, c).Ok?
    ensures Mul(Mul(a, b).value, c) == Mul(a, Mul(b, c).value)
  {
    SmallProduct(a.num, b.num);
    SmallProduct(b.num, c.num);
    var ab, bc := Mul(a, b).value, Mul(b, c).value;
    SmallProduct(ab.num, c.num);
    SmallProduct(a.num, bc.num);
    var x: int, y: int, z: int, m: int := a.num, b.num, c.num, a.order;
    ModMulLeft(x * y, z, m);
    ModMulRight(x, y * z, m);
    assert (x * y) * z == x * (y * z);
  }

  /** The defect of `eq`: elements of different fields with equal values
      compare equal, which the two-field comparison rejects. */
  lemma EqIgnoresOrder(a: FieldElement, b: FieldElement)
    requires a.num == b.num && a.order != b.order
    ensures Eq(a, b) && !EqFixed(a, b)
  {
  }

  // ---------------------------------------------------------------------------
  // The square-and-multiply loop of `pow`

  /** The loop of `pow` from a state `(res, num, exp)` on: one call per
      iteration. Bit tests and shifts of `exp` are `% 2` and `/ 2`. The value
      it computes is stated by `LoopComputesPower`. */
  function Loop(res: u32, num: u32, exp: u32, order: u32): (r: Outcome<u32>)
    ensures !r.FieldError?
    ensures exp == 0 ==> r == Ok(res)
    ensures exp > 0 && r.Ok? ==> r.value < order
    ensures exp > 0 && order == 0 ==> r.Panicked?
    decreases exp
  {
    if exp == 0 then
      Ok(res)
    else
      var res' :- if exp % 2 != 0 then MulMod(res, num, order) else Ok(res);
      var num' :- MulMod(num, num, order);
      Loop(res', num', exp / 2, order)
  }

  /** The loop keeps `res * num^exp` fixed modulo `order`; once it has
      multiplied at least once, `res` is reduced. */
  lemma {:induction false} LoopComputesPower(res: u32, num: u32, exp: u32, order: u32)
    ensures Loop(res, num, exp, order).Ok? ==>
              Loop(res, num, exp, order).value
                == if exp == 0 then res else (res * Power(num, exp)) % order
    decreases exp
  {
    if exp > 0 && Loop(res, num, exp, order).Ok? {
      var res' := if exp % 2 != 0 then MulMod(res, num, order) else Ok(res);
      var num' := MulMod(num, num, order);
      assert res'.Ok? && num'.Ok?;
      var r', n', e' := res'.value, num'.value, exp / 2;
      LoopComputesPower(r', n', e', order);
      var v := Loop(r', n', e', order).value;
      assert Loop(res, num, exp, order).value == v;
      StepKeepsPower(res, num, exp, order, r', n', v);
    }
  }

  /** One iteration of the loop keeps `res * num^exp` modulo `order`. */
  lemma StepKeepsPower(res: nat, num: nat, exp: nat, order: nat, r': nat, n': nat, v: nat)
    requires order > 0 && exp > 0
    requires r' == if exp % 2 != 0 then (res * num) % order else res
    requires n' == (num * num) % order
    requires v == if exp / 2 == 0 then r' else (r' * Power(n', exp / 2)) % order
    ensures v == (res * Power(num, exp)) % order
  {
    var e' := exp / 2;
    if e' == 0 {
      assert exp == 1;
      assert Power(num, 1) == num;
    } else {
      // n'^e' == num^(2 e') modulo order
      assert Power(n', e') % order == Power(num, 2 * e') % order by {
        PowerMod(num * num, e', order);
        PowerMul(num, 2, e');
        assert Power(num, 2) == num * num;
      }
      if exp % 2 != 0 {
        assert exp == 2 * e' + 1;
        assert Power(num, exp) == num * Power(num, 2 * e');
        ModOfMod(res * num, order);
        MulCongruence(r', res * num, Power(n', e'), Power(num, 2 * e'), order);
        assert (res * num) * Power(num, 2 * e') == res * Power(num, exp);
      } else {
        assert exp == 2 * e';
        MulCongruence(r', res, Power(n', e'), Power(num, 2 * e'), order);
      }
    }
  }

  /** Below 2^16 neither product of the loop overflows a `u32`, so the loop
      runs to the end; with order 0 it panics at its first `%`. */
  lemma {:induction false} LoopRunsToEnd(res: u32, num: u32, exp: u32, order: u32)
    ensures 0 < order <= 0x1_0000 && res < 0x1_0000 && num < 0x1_0000 ==>
              Loop(res, num, exp, order).Ok?
    ensures order == 0 && exp > 0 ==> Loop(res, num, exp, order).Panicked?
    decreases exp
  {
    if exp > 0 && 0 < order <= 0x1_0000 && res < 0x1_0000 && num < 0x1_0000 {
      SmallProduct(res, num);
      SmallProduct(num, num);
      var res' := if exp % 2 != 0 then MulMod(res, num, order).value else res;
      var num' := MulMod(num, num, order).value;
      LoopRunsToEnd(res', num', exp / 2, order);
    }
  }

  lemma SmallProduct(x: nat, y: nat)
    requires x < 0x1_0000 && y < 0x1_0000
    ensures x * y <= U32_MAX
  {
    MulMonotone(x, 0xFFFF, y);
    MulMonotone(y, 0xFFFF, 0xFFFF);
  }

  /** The loop started as `pow` starts it, for a value below the order. */
  lemma LoopClosedForm(num: u32, exp: u32, order: u32)
    requires 2 <= order <= 0x1_0000 && num < order
    ensures Loop(1, num, exp, order) == Ok(Power(num, exp) % order)
  {
    LoopComputesPower(1, num, exp, order);
    LoopRunsToEnd(1, num, exp, order);
    if exp == 0 {
      ModSmall(1, order);
    }
  }

  /** The square-and-multiply loop of `pow`, written as in the crate. */
  method SquareAndMultiply(num0: u32, exp0: u32, order: u32) returns (r: Outcome<u32>)
    ensures r == Loop(1, num0, exp0, order)
    ensures r.Ok? ==> r.value == if exp0 == 0 then 1 else Power(num0, exp0) % order
    ensures 0 < order <= 0x1_0000 && num0 < 0x1_0000 ==> r.Ok?
  {
    LoopComputesPower(1, num0, exp0, order);
    LoopRunsToEnd(1, num0, exp0, order);
    var res: u32 := 1;
    var num := num0;
    var exp := exp0;
    while exp > 0
      invariant Loop(res, num, exp, order) == Loop(1, num0, exp0, order)
      decreases exp
    {
      if exp % 2 != 0 {
        res :- MulMod(res, num, order);
      }
      num :- MulMod(num, num, order);
      exp := exp / 2;
    }
    return Ok(res);
  }
}

=== FILE: fieldelement.dfy ===
/** `pow` and `/` as `src/fieldelement.rs` writes them: the exponent is
    first reduced with Rust's truncating `%` modulo `order - 1`, and a negative
    remainder is then shifted up by `order - 1`. */
module Fieldelement {
  import opened Errors
  import opened Machine
  import opened ModMath
  import opened Field
  import Lib

  /** The exponent `pow` hands to its loop. For orders in [2, i32::MAX] it is
      the Euclidean residue of the exponent modulo `order - 1`. */
  function Exponent(order: u32, exponent: i32): (r: Outcome<u32>)
    ensures 2 <= order <= I32_MAX ==> r == Ok(exponent % (order - 1))
    ensures order == 1 ==> r == Panicked(RemainderByZero)
    ensures order > I32_MAX ==> r == Panicked(ConversionFailed)
    ensures order == 0 ==> r == if exponent == I32_MIN then Panicked(Overflow) else Ok(0)
  {
    var o :- I32FromU32(order);
    // `o - 1` cannot overflow, since o >= 0
    var rem :- RemI32(exponent, o - 1);
    TruncRemShift(exponent, o - 1);
    if rem < 0 then
      // here o >= 2 and -(o - 1) < rem, so neither the addition nor the
      // conversion to `u32` can fail
      Ok(o - 1 + rem)
    else
      Ok(rem)
  }

  /** `FieldElement::pow`. */
  function Pow(a: FieldElement, exponent: i32): (r: Outcome<FieldElement>)
    ensures r.Ok? ==> r.value.order == a.order
    ensures r.Ok? && a.order >= 2 ==> r.value.Valid()
    ensures !r.FieldError?
    ensures a.order == 1 ==> r == Panicked(RemainderByZero)
    ensures a.order > I32_MAX ==> r == Panicked(ConversionFailed)
    ensures a.order == 0 ==>
              r == if exponent == I32_MIN then Panicked(Overflow) else Ok(FieldElement(1, 0))
  {
    var exp :- Exponent(a.order, exponent);
    var n :- Loop(1, a.num, exp, a.order);
    Ok(FieldElement(n, a.order))
  }

  /** `pow` with the exponent reduction skipped for a zero base and a
      non-negative exponent, where Fermat's little theorem does not apply. */
  function PowFixed(a: FieldElement, exponent: i32): (r: Outcome<FieldElement>)
    ensures r.Ok? ==> r.value.order == a.order
    ensures r.Ok? && a.order >= 2 ==> r.value.Valid()
    ensures !r.FieldError?
    ensures !(a.num == 0 && exponent >= 0) && a.order == 1 ==> r == Panicked(RemainderByZero)
    ensures !(a.num == 0 && exponent >= 0) && a.order > I32_MAX ==> r == Panicked(ConversionFailed)
  {
    var exp :- if a.num == 0 && exponent >= 0 then U32FromI32(exponent)
               else Exponent(a.order, exponent);
    var n :- Loop(1, a.num, exp, a.order);
    Ok(FieldElement(n, a.order))
  }

  /** `impl Div`: multiplication by `pow(-1)`. For a negative exponent
      `PowFixed` and `Pow` coincide, so the defect of `pow` does not reach
      `/` (see `PowFixedDiffersOnlyOnZeroBase`). */
  function Div(a: FieldElement, b: FieldElement): (r: Outcome<FieldElement>)
    ensures a.order != b.order ==> r.Panicked?
    ensures r.Ok? ==> r.value.order == a.order && r.value.Valid()
    ensures b.order == 1 ==> r == Panicked(RemainderByZero)
    ensures b.order > I32_MAX ==> r == Panicked(ConversionFailed)
    ensures b.order == 0 ==> r.Panicked?
  {
    var inv :- Pow(b, -1);
    Mul(a, inv)
  }

  // ---------------------------------------------------------------------------

  /** Exponents that differ by a multiple of `order - 1` give the same
      result, panics included. */
  lemma PowPeriodic(a: FieldElement, e: i32, k: int)
    requires a.order >= 1 && I32_MIN <= e + k * (a.order - 1) <= I32_MAX
    ensures Pow(a, e) == Pow(a, e + k * (a.order - 1))
  {
    if 2 <= a.order <= I32_MAX {
      ModAddMultiple(k, a.order - 1, e);
      assert k * (a.order - 1) + e == e + k * (a.order - 1);
    }
  }

  /** For every exponent, the residue of num raised to the exponent's
      Euclidean residue modulo `order - 1`. */
  lemma PowReduces(a: FieldElement, e: i32)
    requires a.Valid() && 2 <= a.order <= MUL_SAFE_ORDER
    ensures Pow(a, e) == Ok(FieldElement(Power(a.num, e % (a.order - 1)) % a.order, a.order))
  {
    LoopClosedForm(a.num, e % (a.order - 1), a.order);
  }

  /** For a prime order and a nonzero base the reduction is sound (Fermat's
      little theorem): a non-negative exponent gives the residue of num^e. */
  lemma PowNonNegative(a: FieldElement, e: i32)
    requires IsPrime(a.order) && a.order <= MUL_SAFE_ORDER && a.Valid() && a.num != 0
    requires e >= 0
    ensures Pow(a, e) == Ok(FieldElement(Power(a.num, e) % a.order, a.order))
  {
    var p: nat := a.order;
    PowReduces(a, e);
    ModUnique(a.num, p, 0, a.num);
    FermatReduce(p, a.num, e);
  }

  /** For a zero base the reduction is unsound: `pow(order - 1)` returns 1,
      where num^(order-1) and the `src/lib.rs` variant give 0. */
  lemma PowZeroBase(p: u32)
    requires 2 <= p <= MUL_SAFE_ORDER
    ensures Power(0, p - 1) % p == 0
    ensures Pow(FieldElement(0, p), p - 1) == Ok(FieldElement(1, p))
    ensures Lib.Pow(FieldElement(0, p), p - 1) == Ok(FieldElement(0, p))
  {
    var zero := FieldElement(0, p);
    PowerOfZero(p - 1);
    PowReduces(zero, p - 1);
    ModUnique(p - 1, p - 1, 1, 0);
    Lib.PowNonNegative(zero, p - 1);
  }

  /** The corrected `pow` computes the residue of num^e for every
      non-negative exponent, zero base included. */
  lemma PowFixedIsPower(a: FieldElement, e: i32)
    requires IsPrime(a.order) && a.order <= MUL_SAFE_ORDER && a.Valid() && e >= 0
    ensures PowFixed(a, e) == Ok(FieldElement(Power(a.num, e) % a.order, a.order))
  {
    if a.num == 0 {
      LoopClosedForm(0, e, a.order);
    } else {
      PowNonNegative(a, e);
    }
  }

  /** The corrected `pow` departs from the written one only for a zero base
      and a non-negative exponent. */
  lemma PowFixedDiffersOnlyOnZeroBase(a: FieldElement, e: i32)
    ensures PowFixed(a, e) != Pow(a, e) ==> a.num == 0 && e >= 0
  {
  }

  /** For a prime order and a nonzero base, the two `pow` variants agree
      wherever the `src/lib.rs` one does not panic. */
  lemma PowAgreesWithLib(a: FieldElement, e: i32)
    requires IsPrime(a.order) && a.order <= MUL_SAFE_ORDER && a.Valid() && a.num != 0
    requires Lib.Pow(a, e).Ok?
    ensures Pow(a, e) == Lib.Pow(a, e)
  {
    var p: nat := a.order;
    if e >= 0 {
      PowNonNegative(a, e);
      Lib.PowNonNegative(a, e);
    } else {
      Lib.PowNegative(a, e);
      var x: nat := p - 1 + e;
      PowReduces(a, e);
      ModAddMultiple(1, p - 1, e);
      assert x % (p - 1) == e % (p - 1);
      ModUnique(a.num, p, 0, a.num);
      FermatReduce(p, a.num, x);
    }
  }

  /** Both files divide alike: `pow(-1)` raises to `order - 2` in both. */
  lemma DivAgreesWithLib(a: FieldElement, b: FieldElement)
    requires b.order >= 2
    ensures Div(a, b) == Lib.Div(a, b)
  {
    if b.order <= I32_MAX {
      ModUnique(-1, b.order - 1, -1, b.order - 2);
      assert Exponent(b.order, -1) == Ok(b.order - 2);
      assert Lib.Exponent(b.order, -1) == Ok(b.order - 2);
    }
  }

  /** With a prime order, dividing by a nonzero b and multiplying by b
      again gives back the dividend. */
  lemma DivMulCancel(a: FieldElement, b: FieldElement)
    requires IsPrime(b.order) && b.order <= MUL_SAFE_ORDER
    requires a.Valid() && b.Valid() && a.order == b.order && b.num != 0
    ensures Div(a, b).Ok? && Mul(Div(a, b).value, b) == Ok(a)
  {
    DivAgreesWithLib(a, b);
    Lib.DivMulCancel(a, b);
  }
}

=== FILE: lib.dfy ===
/** `pow` and `/` as `src/lib.rs` writes them: a negative exponent e is
    replaced by `order - 1 + e` with no reduction, so exponents below
    `-(order - 1)` fail the conversion to `u32` and panic. */
module Lib {
  import opened Errors
  import opened Machine
  import opened ModMath
  import opened Field

  /** The exponent `pow` hands to its loop. */
  function Exponent(order: u32, exponent: i32): (r: Outcome<u32>)
    ensures exponent >= 0 ==> r == Ok(exponent)
    ensures exponent < 0 ==> (r.Ok? <==> order <= I32_MAX && order - 1 + exponent >= 0)
    ensures exponent < 0 && r.Ok? ==> r.value == order - 1 + exponent
    ensures exponent < 0 && !r.Ok? ==>
              r == if order == 0 && exponent == I32_MIN then Panicked(Overflow)
                   else Panicked(ConversionFailed)
  {
    if exponent < 0 then
      var o :- I32FromU32(order);
      // `o - 1` cannot overflow, since o >= 0; adding the exponent overflows
      // only for order 0 and `i32::MIN`
      var s :- AddI32(o - 1, exponent);
      U32FromI32(s)
    else
      U32FromI32(exponent)
  }

  /** `FieldElement::pow`. */
  function Pow(a: FieldElement, exponent: i32): (r: Outcome<FieldElement>)
    ensures r.Ok? ==> r.value.order == a.order
    ensures r.Ok? && a.order >= 2 ==> r.value.Valid()
    ensures !r.FieldError?
    ensures exponent < 0 && (a.order > I32_MAX || a.order - 1 + exponent < 0) ==>
              r == if a.order == 0 && exponent == I32_MIN then Panicked(Overflow)
                   else Panicked(ConversionFailed)
    ensures a.order == 0 && exponent != 0 ==> r.Panicked?
  {
    var exp :- Exponent(a.order, exponent);
    var n :- Loop(1, a.num, exp, a.order);
    Ok(FieldElement(n, a.order))
  }

  /** `impl Div`: multiplication by `pow(-1)`. The inverse is computed
      before `*` checks the orders, so a failing `pow` panics first. */
  function Div(a: FieldElement, b: FieldElement): (r: Outcome<FieldElement>)
    ensures a.order != b.order ==> r.Panicked?
    ensures b.order <= 1 || b.order > I32_MAX ==> r == Panicked(ConversionFailed)
    ensures r.Ok? ==> r.value.order == a.order && r.value.Valid()
  {
    var inv :- Pow(b, -1);
    Mul(a, inv)
  }

  // ---------------------------------------------------------------------------

  /** A non-negative exponent: the residue of num^e. */
  lemma PowNonNegative(a: FieldElement, e: i32)
    requires a.Valid() && 2 <= a.order <= MUL_SAFE_ORDER && e >= 0
    ensures Pow(a, e) == Ok(FieldElement(Power(a.num, e) % a.order, a.order))
  {
    LoopClosedForm(a.num, e, a.order);
  }

  /** A negative exponent e is raised as `order - 1 + e`, and panics
      when that is negative. */
  lemma PowNegative(a: FieldElement, e: i32)
    requires a.Valid() && 2 <= a.order <= MUL_SAFE_ORDER && e < 0
    ensures e >= 1 - a.order ==>
              Pow(a, e) == Ok(FieldElement(Power(a.num, a.order - 1 + e) % a.order, a.order))
    ensures e < 1 - a.order ==> Pow(a, e) == Panicked(ConversionFailed)
  {
    if e >= 1 - a.order {
      LoopClosedForm(a.num, a.order - 1 + e, a.order);
    }
  }

  /** In the one-element "field" `pow(0)` returns 1, outside the range. */
  lemma PowZeroOnOrderOne(a: FieldElement)
    requires a.order == 1
    ensures Pow(a, 0) == Ok(FieldElement(1, 1)) && !Pow(a, 0).value.Valid()
  {
  }

  /** Raising to e + 1 is multiplying the e-th power once more by the base. */
  lemma PowStep(a: FieldElement, e: i32)
    requires a.Valid() && 2 <= a.order <= MUL_SAFE_ORDER && 0 <= e < I32_MAX
    ensures Pow(a, e).Ok? && Pow(a, e + 1) == Mul(Pow(a, e).value, a)
  {
    PowNonNegative(a, e);
    PowNonNegative(a, e + 1);
    var x: int := Power(a.num, e);
    SmallProduct(x % a.order, a.num);
    ModMulLeft(x, a.num, a.order);
    assert Power(a.num, e + 1) == x * a.num;
  }

  /** With a prime order, pow(-k) is the inverse of pow(k) for every k the
      conversion accepts (Fermat's little theorem). */
  lemma PowNegativeIsInverse(a: FieldElement, k: int)
    requires IsPrime(a.order) && a.order <= MUL_SAFE_ORDER && a.Valid() && a.num != 0
    requires 1 <= k <= a.order - 1
    ensures Pow(a, -k).Ok? && Pow(a, k).Ok?
    ensures Mul(Pow(a, -k).value, Pow(a, k).value) == Ok(FieldElement(1, a.order))
  {
    var p: nat := a.order;
    PowNegative(a, -k);
    PowNonNegative(a, k);
    var x, y := Power(a.num, p - 1 - k), Power(a.num, k);
    SmallProduct(x % p, y % p);
    MulCongruence(x % p, x, y % p, y, p) by {
      ModOfMod(x, p);
      ModOfMod(y, p);
    }
    PowerAdd(a.num, p - 1 - k, k);
    ModUnique(a.num, p, 0, a.num);
    Fermat(p, a.num);
  }

  /** a / b is a times b^(order - 2). */
  lemma DivIsMulByPower(a: FieldElement, b: FieldElement)
    requires a.Valid() && b.Valid() && a.order == b.order && 2 <= b.order <= MUL_SAFE_ORDER
    ensures Div(a, b) == Mul(a, FieldElement(Power(b.num, b.order - 2) % b.order, b.order))
  {
    PowNegative(b, -1);
  }

  /** With a prime order, dividing by a nonzero b and multiplying by b
      again gives back the dividend. */
  lemma DivMulCancel(a: FieldElement, b: FieldElement)
    requires IsPrime(b.order) && b.order <= MUL_SAFE_ORDER
    requires a.Valid() && b.Valid() && a.order == b.order && b.num != 0
    ensures Div(a, b).Ok? && Mul(Div(a, b).value, b) == Ok(a)
  {
    var p: nat := b.order;
    PowNegativeIsInverse(b, 1);
    PowNonNegative(b, 1);
    PowNegative(b, -1);
    var inv := Pow(b, -1).value;
    assert Pow(b, 1).value == b by {
      ModUnique(b.num, p, 0, b.num);
    }
    assert Mul(inv, b) == Ok(FieldElement(1, p));
    assert Div(a, b) == Mul(a, inv);
    assert inv.Valid() && inv.order == p;
    MulAssociates(a, inv, b);
    assert Mul(a, FieldElement(1, p)) == Ok(a) by {
      ModUnique(a.num, p, 0, a.num);
    }
  }

  /** Division by the zero element is not guarded: for orders above 2 it
      yields zero. */
  lemma DivByZero(a: FieldElement)
    requires a.Valid() && 3 <= a.order <= MUL_SAFE_ORDER
    ensures Div(a, FieldElement(0, a.order)) == Ok(FieldElement(0, a.order))
  {
    var zero := FieldElement(0, a.order);
    var n: nat := a.order - 2;
    PowNegative(zero, -1);
    PowerOfZero(n);
    assert Power(0, n) % a.order == 0;
    assert FieldElement(Power(0, n) % a.order, a.order) == zero;
    assert Pow(zero, -1) == Ok(zero);
  }
}

=== FILE: machine.dfy ===
/** Fixed-width integers of the crate (`u32`, `i32`) as subset types of `int`,
    with arithmetic that panics where a debug build of the crate panics. */
module Machine {
  import opened Errors
  import ModMath

  const U32_MAX: int := 0xFFFF_FFFF
  const I32_MIN: int := -0x8000_0000
  const I32_MAX: int := 0x7FFF_FFFF

  type u32 = x: int | 0 <= x <= 0xFFFF_FFFF
  type i32 = x: int | -0x8000_0000 <= x <= 0x7FFF_FFFF

  function Abs(x: int): nat {
    if x < 0 then -x else x
  }

  // ---- u32 ----

  function AddU32(a: u32, b: u32): Outcome<u32> {
    if a + b <= U32_MAX then Ok(a + b) else Panicked(Overflow)
  }

  function SubU32(a: u32, b: u32): Outcome<u32> {
    if b <= a then Ok(a - b) else Panicked(Overflow)
  }

  function MulU32(a: u32, b: u32): Outcome<u32> {
    if a * b <= U32_MAX then Ok(a * b) else Panicked(Overflow)
  }

  function RemU32(a: u32, b: u32): Outcome<u32> {
    if b == 0 then Panicked(RemainderByZero) else Ok(a % b)
  }

  // ---- i32 ----

  function AddI32(a: i32, b: i32): Outcome<i32> {
    if I32_MIN <= a + b <= I32_MAX then Ok(a + b) else Panicked(Overflow)
  }

  /** The remainder of a division that truncates toward zero, the meaning of
      `%` on Rust's signed integers: it takes the sign of the dividend. */
  function TruncRem(a: int, b: int): (r: int)
    requires b != 0
    ensures Abs(r) < Abs(b)
    ensures r == 0 || (r < 0 <==> a < 0)
    ensures (a - r) % Abs(b) == 0
  {
    TruncRemProperties(a, Abs(b));
    if a >= 0 then a % Abs(b) else -((-a) % Abs(b))
  }

  lemma TruncRemProperties(a: int, m: nat)
    requires m > 0
    ensures a >= 0 ==> a % m < m && (a - a % m) % m == 0
    ensures a < 0 ==> (-a) % m < m && (a + (-a) % m) % m == 0
  {
    if a >= 0 {
      RemainderLeavesMultiple(a, m);
    } else {
      RemainderLeavesMultiple(-a, m);
      ModMath.ModNegate(-a - (-a) % m, m);
    }
  }

  lemma RemainderLeavesMultiple(a: int, m: nat)
    requires m > 0
    ensures (a - a % m) % m == 0
  {
    ModMath.DivMod(a, m);
    ModMath.ModUnique(a - a % m, m, a / m, 0);
  }

  /** Adding b to a negative truncated remainder gives the Euclidean
      residue: the normalisation `pow` applies to its exponent. */
  lemma TruncRemShift(a: int, b: int)
    requires b != 0
    ensures b >= 1 ==>
              (if TruncRem(a, b) < 0 then b + TruncRem(a, b) else TruncRem(a, b)) == a % b
  {
    if a < 0 && b >= 1 {
      var t := (-a) % b;
      var k := (-a) / b;
      ModMath.DivMod(-a, b);
      if t == 0 {
        ModMath.ModUnique(a, b, -k, 0);
      } else {
        ModMath.ModUnique(a, b, -k - 1, b - t);
      }
    }
  }

  /** `a % b` on `i32`: panics on a zero divisor and on `i32::MIN % -1`. */
  function RemI32(a: i32, b: i32): Outcome<i32> {
    if b == 0 then Panicked(RemainderByZero)
    else if a == I32_MIN && b == -1 then Panicked(Overflow)
    else Ok(TruncRem(a, b))
  }

  // ---- conversions followed by unwrap ----

  /** `i32::try_from(a).unwrap()` for a `u32` a. */
  function I32FromU32(a: u32): Outcome<i32> {
    if a <= I32_MAX then Ok(a) else Panicked(ConversionFailed)
  }

  /** `a.try_into().unwrap()` from `i32` into `u32`. */
  function U32FromI32(a: i32): Outcome<u32> {
    if 0 <= a then Ok(a) else Panicked(ConversionFailed)
  }
}

=== FILE: modmath.dfy ===
/** The number theory behind the field operations: modular reduction,
    powers, binomial coefficients, Euclid's lemma and Fermat's little theorem.
    Fermat's theorem is what makes `pow(-1)` an inverse and what justifies
    reducing an exponent modulo `order - 1`. */
module ModMath {

  // ---------------------------------------------------------------------------
  // Euclidean division

  lemma MulAtLeast(d: int, m: int)
    requires d >= 1 && m > 0
    ensures d * m >= m
  {
    assert d * m == (d - 1) * m + m;
  }

  lemma MulMonotone(a: int, b: int, c: int)
    requires a <= b && c >= 0
    ensures a * c <= b * c
  {
    assert b * c - a * c == (b - a) * c;
  }

  lemma MulSubDistrib(a: int, b: int, m: int)
    ensures (a - b) * m == a * m - b * m
  {
  }

  /** Quotient and remainder are determined by x == q * m + r, 0 <= r < m. */
  lemma ModUnique(x: int, m: int, q: int, r: int)
    requires 0 < m && 0 <= r < m && x == q * m + r
    ensures x / m == q && x % m == r
  {
    var q', r' := x / m, x % m;
    assert x == q' * m + r';
    var d := q - q';
    MulSubDistrib(q, q', m);
    assert d * m == r' - r;
    if d >= 1 {
      MulAtLeast(d, m);
    } else if d <= -1 {
      MulAtLeast(-d, m);
    }
  }

  lemma ModSmall(x: int, m: int)
    requires 0 <= x < m
    ensures x % m == x && x / m == 0
  {
    ModUnique(x, m, 0, x);
  }

  lemma ModNegate(x: int, m: int)
    requires m > 0 && x % m == 0
    ensures (-x) % m == 0
  {
    DivMod(x, m);
    ModUnique(-x, m, -(x / m), 0);
  }

  lemma ModAddMultiple(k: int, m: int, x: int)
    requires m > 0
    ensures (k * m + x) % m == x % m
  {
    assert k * m + x == (k + x / m) * m + x % m;
    ModUnique(k * m + x, m, k + x / m, x % m);
  }

  lemma ModMultiple(k: int, m: int)
    requires m > 0
    ensures (k * m) % m == 0
  {
    ModUnique(k * m, m, k, 0);
  }

  lemma ModMulLeft(a: int, b: int, m: int)
    requires m > 0
    ensures ((a % m) * b) % m == (a * b) % m
  {
    var q := a / m;
    assert a * b == (q * b) * m + (a % m) * b;
    ModAddMultiple(q * b, m, (a % m) * b);
  }

  lemma ModMulRight(a: int, b: int, m: int)
    requires m > 0
    ensures (a * (b % m)) % m == (a * b) % m
  {
    ModMulLeft(b, a, m);
  }

  lemma ModAddLeft(a: int, b: int, m: int)
    requires m > 0
    ensures ((a % m) + b) % m == (a + b) % m
  {
    assert a + b == (a / m) * m + ((a % m) + b);
    ModAddMultiple(a / m, m, (a % m) + b);
  }

  lemma ModAddRight(a: int, b: int, m: int)
    requires m > 0
    ensures (a + (b % m)) % m == (a + b) % m
  {
    ModAddLeft(b, a, m);
  }

  /** Multiplication respects congruence in both factors. */
  lemma MulCongruence(x: int, x': int, y: int, y': int, m: int)
    requires m > 0 && x % m == x' % m && y % m == y' % m
    ensures (x * y) % m == (x' * y') % m
  {
    ModMulLeft(x, y, m);
    ModMulLeft(x', y, m);
    ModMulRight(x', y, m);
    ModMulRight(x', y', m);
  }

  lemma ModAddAssociates(x: int, y: int, z: int, m: int, xy: int, yz: int)
    requires m > 0 && xy == (x + y) % m && yz == (y + z) % m
    ensures (xy + z) % m == (x + yz) % m
  {
    var u := x + y + z;
    ModAddLeftTo(x + y, z, u, m);
    ModAddLeftTo(y + z, x, u, m);
  }

  /** `ModAddLeft` with the sum named, so callers need not rearrange it. */
  lemma ModAddLeftTo(a: int, b: int, c: int, m: int)
    requires m > 0 && a + b == c
    ensures ((a % m) + b) % m == c % m && (b + (a % m)) % m == c % m
  {
    ModAddLeft(a, b, m);
  }

  lemma ModOfMod(a: int, m: int)
    requires m > 0
    ensures (a % m) % m == a % m
  {
    ModUnique(a % m, m, 0, a % m);
  }

  /** A multiple of m times anything is a multiple of m. */
  lemma MulOfMultiple(a: int, b: int, m: int)
    requires m > 0 && a % m == 0
    ensures (a * b) % m == 0
  {
    ModMulLeft(a, b, m);
  }

  // ---------------------------------------------------------------------------
  // Powers

  function Power(b: nat, e: nat): nat
    decreases e
  {
    if e == 0 then 1 else b * Power(b, e - 1)
  }

  lemma {:induction false} PowerAdd(b: nat, m: nat, n: nat)
    ensures Power(b, m + n) == Power(b, m) * Power(b, n)
    decreases m
  {
    if m > 0 {
      PowerAdd(b, m - 1, n);
      var x, y := Power(b, m - 1), Power(b, n);
      assert Power(b, m + n) == b * Power(b, (m - 1) + n);
      MulAssoc(b, x, y);
    }
  }

  lemma MulAssoc(a: int, b: int, c: int)
    ensures a * (b * c) == (a * b) * c
  {
  }

  lemma {:induction false} PowerMul(b: nat, m: nat, n: nat)
    ensures Power(b, m * n) == Power(Power(b, m), n)
    decreases n
  {
    if n > 0 {
      PowerMul(b, m, n - 1);
      assert m * n == m + m * (n - 1);
      PowerAdd(b, m, m * (n - 1));
    }
  }

  lemma {:induction false} PowerOfOne(e: nat)
    ensures Power(1, e) == 1
    decreases e
  {
    if e > 0 {
      PowerOfOne(e - 1);
    }
  }

  lemma PowerOfZero(e: nat)
    requires e > 0
    ensures Power(0, e) == 0
  {
  }

  lemma {:induction false} PowerPositive(b: nat, e: nat)
    requires b > 0
    ensures Power(b, e) > 0
    decreases e
  {
    if e > 0 {
      PowerPositive(b, e - 1);
    }
  }

  /** Reducing the base before raising it does not change the residue. */
  lemma {:induction false} PowerMod(b: nat, e: nat, m: nat)
    requires m > 0
    ensures Power(b % m, e) % m == Power(b, e) % m
    decreases e
  {
    if e > 0 {
      PowerMod(b, e - 1, m);
      calc {
        Power(b % m, e) % m;
        ((b % m) * Power(b % m, e - 1)) % m;
        { ModMulRight(b % m, Power(b % m, e - 1), m); }
        ((b % m) * (Power(b % m, e - 1) % m)) % m;
        ((b % m) * (Power(b, e - 1) % m)) % m;
        { ModMulRight(b % m, Power(b, e - 1), m); }
        ((b % m) * Power(b, e - 1)) % m;
        { ModMulLeft(b, Power(b, e - 1), m); }
        (b * Power(b, e - 1)) % m;
      }
    }
  }

  // ---------------------------------------------------------------------------
  // Primes and Euclid's lemma

  predicate Divides(d: nat, n: nat) {
    d > 0 && n % d == 0
  }

  predicate IsPrime(p: nat) {
    p >= 2 && forall d :: 2 <= d < p ==> !Divides(d, p)
  }

  /** If a prime divides a product and not its first factor (taken in
      [1, p)), it divides the second. By descent on the first factor:
      p mod a is a smaller first factor with the same property. */
  lemma {:induction false} EuclidLemma(p: nat, a: nat, b: nat)
    requires IsPrime(p) && 0 < a < p && (a * b) % p == 0
    ensures b % p == 0
    decreases a
  {
    if a > 1 {
      assert !Divides(a, p);
      var q, r := p / a, p % a;
      assert 0 < r < a;
      var k := (a * b) / p;
      assert a * b == k * p;
      assert p == q * a + r;
      assert r * b == (b - q * k) * p by {
        calc {
          r * b;
          (p - q * a) * b;
          p * b - q * (a * b);
          p * b - q * (k * p);
          (b - q * k) * p;
        }
      }
      ModMultiple(b - q * k, p);
      EuclidLemma(p, r, b);
    }
  }

  // ---------------------------------------------------------------------------
  // Binomial coefficients and the binomial theorem

  function Binom(n: nat, k: nat): nat
    decreases n
  {
    if k == 0 then 1
    else if n == 0 then 0
    else Binom(n - 1, k - 1) + Binom(n - 1, k)
  }

  lemma {:induction false} BinomAbove(n: nat, k: nat)
    requires k > n
    ensures Binom(n, k) == 0
    decreases n
  {
    if n > 0 {
      BinomAbove(n - 1, k - 1);
      BinomAbove(n - 1, k);
    }
  }

  lemma {:induction false} BinomDiagonal(n: nat)
    ensures Binom(n, n) == 1
    decreases n
  {
    if n > 0 {
      BinomDiagonal(n - 1);
      BinomAbove(n - 1, n);
    }
  }

  lemma {:induction false} BinomOne(n: nat)
    ensures Binom(n, 1) == n
    decreases n
  {
    if n > 0 {
      BinomOne(n - 1);
    }
  }

  /** The absorption identity k * C(n, k) == n * C(n-1, k-1). */
  lemma {:induction false} BinomAbsorb(n: nat, k: nat)
    requires n >= 1 && k >= 1
    ensures k * Binom(n, k) == n * Binom(n - 1, k - 1)
    decreases n
  {
    if k == 1 {
      BinomOne(n);
    } else if n == 1 {
      BinomAbove(1, k);
      BinomAbove(0, k - 1);
    } else {
      BinomAbsorb(n - 1, k);
      BinomAbsorb(n - 1, k - 1);
      var a, b := Binom(n - 1, k - 1), Binom(n - 1, k);
      var c, d := Binom(n - 2, k - 2), Binom(n - 2, k - 1);
      assert Binom(n, k) == a + b;
      assert a == c + d;
      assert k * b == (n - 1) * d;
      assert (k - 1) * a == (n - 1) * c;
      AbsorbStep(n, k, a, b, c, d);
    }
  }

  lemma AbsorbStep(n: int, k: int, a: int, b: int, c: int, d: int)
    requires a == c + d && k * b == (n - 1) * d && (k - 1) * a == (n - 1) * c
    ensures k * (a + b) == n * a
  {
    calc {
      k * (a + b);
      (k - 1) * a + a + k * b;
      (n - 1) * c + a + (n - 1) * d;
      (n - 1) * (c + d) + a;
      n * a;
    }
  }

  /** A prime p divides C(p, k) for 0 < k < p. */
  lemma PrimeDividesBinom(p: nat, k: nat)
    requires IsPrime(p) && 0 < k < p
    ensures Binom(p, k) % p == 0
  {
    BinomAbsorb(p, k);
    assert k * Binom(p, k) == Binom(p - 1, k - 1) * p;
    ModMultiple(Binom(p - 1, k - 1), p);
    EuclidLemma(p, k, Binom(p, k));
  }

  /** The sum of C(n, i) * x^i for i in [0, j]. */
  function BinomSum(x: nat, n: nat, j: nat): nat
    decreases j
  {
    if j == 0 then 1 else BinomSum(x, n, j - 1) + Binom(n, j) * Power(x, j)
  }

  /** Pascal's rule lifted to the partial sums. */
  lemma {:induction false} BinomSumStep(x: nat, n: nat, j: nat)
    ensures BinomSum(x, n + 1, j + 1) == BinomSum(x, n, j + 1) + x * BinomSum(x, n, j)
    decreases j
  {
    if j == 0 {
      BinomOne(n);
      BinomOne(n + 1);
    } else {
      BinomSumStep(x, n, j - 1);
      SumStepAlgebra(x, BinomSum(x, n + 1, j + 1), BinomSum(x, n + 1, j),
        BinomSum(x, n, j + 1), BinomSum(x, n, j), BinomSum(x, n, j - 1),
        Binom(n + 1, j + 1), Binom(n, j), Binom(n, j + 1), Power(x, j));
    }
  }

  lemma SumStepAlgebra(x: int, s: int, s': int, t2: int, t1: int, t0: int,
                       c: int, b0: int, b1: int, p: int)
    requires s == s' + c * (x * p)
    requires s' == t1 + x * t0
    requires c == b0 + b1
    requires t2 == t1 + b1 * (x * p)
    requires t1 == t0 + b0 * p
    ensures s == t2 + x * t1
  {
    calc {
      s;
      t1 + x * t0 + (b0 + b1) * (x * p);
      t1 + b1 * (x * p) + x * (t0 + b0 * p);
      t2 + x * t1;
    }
  }

  /** The binomial theorem for (x + 1)^n. */
  lemma {:induction false} Binomial(x: nat, n: nat)
    ensures Power(x + 1, n) == BinomSum(x, n, n)
    decreases n
  {
    if n > 0 {
      var m := n - 1;
      Binomial(x, m);
      BinomSumStep(x, m, m);
      BinomAbove(m, m + 1);
      assert BinomSum(x, m, m + 1) == BinomSum(x, m, m);
      calc {
        Power(x + 1, n);
        (x + 1) * BinomSum(x, m, m);
        BinomSum(x, m, m) + x * BinomSum(x, m, m);
        BinomSum(x, m, m + 1) + x * BinomSum(x, m, m);
        BinomSum(x, n, n);
      }
    }
  }

  /** Every term of (x + 1)^p but the first and the last is a multiple of p. */
  lemma {:induction false} BinomSumModPrime(x: nat, p: nat, j: nat)
    requires IsPrime(p) && j < p
    ensures BinomSum(x, p, j) % p == 1
    decreases j
  {
    if j > 0 {
      BinomSumModPrime(x, p, j - 1);
      PrimeDividesBinom(p, j);
      MulOfMultiple(Binom(p, j), Power(x, j), p);
      ModAddRight(BinomSum(x, p, j - 1), Binom(p, j) * Power(x, j), p);
      ModAddLeft(BinomSum(x, p, j - 1), 0, p);
    }
  }

  // ---------------------------------------------------------------------------
  // Fermat's little theorem

  /** a^p is congruent to a modulo a prime p. */
  lemma {:induction false} FermatPower(p: nat, a: nat)
    requires IsPrime(p)
    ensures Power(a, p) % p == a % p
    decreases a
  {
    if a == 0 {
      PowerOfZero(p);
    } else {
      var b := a - 1;
      FermatPower(p, b);
      Binomial(b, p);
      BinomDiagonal(p);
      BinomSumModPrime(b, p, p - 1);
      assert Power(a, p) == BinomSum(b, p, p - 1) + Power(b, p);
      calc {
        Power(a, p) % p;
        (BinomSum(b, p, p - 1) + Power(b, p)) % p;
        { ModAddLeft(BinomSum(b, p, p - 1), Power(b, p), p); }
        (1 + Power(b, p)) % p;
        { ModAddRight(1, Power(b, p), p); }
        (1 + b % p) % p;
        { ModAddRight(1, b, p); }
        a % p;
      }
    }
  }

  /** Fermat's little theorem: a^(p-1) is 1 modulo a prime p not dividing a. */
  lemma Fermat(p: nat, a: nat)
    requires IsPrime(p) && a % p != 0
    ensures Power(a, p - 1) % p == 1
  {
    FermatPower(p, a);
    var t := Power(a, p - 1);
    PowerPositive(a, p - 1);
    assert Power(a, p) == a * t;
    ModSameDiff(a * t, a, p);
    assert a * (t - 1) == a * t - a;
    ModMulLeft(a, t - 1, p);
    EuclidLemma(p, a % p, t - 1);
    ModAddLeft(t - 1, 1, p);
  }

  /** Two numbers with the same residue differ by a multiple of the modulus. */
  lemma ModSameDiff(x: int, y: int, m: int)
    requires m > 0 && x % m == y % m
    ensures (x - y) % m == 0
  {
    var qx, qy := x / m, y / m;
    assert x - y == (qx - qy) * m by {
      MulSubDistrib(qx, qy, m);
    }
    ModMultiple(qx - qy, m);
  }

  /** Exponents of a base coprime to p may be reduced modulo p - 1. */
  lemma FermatReduce(p: nat, a: nat, e: nat)
    requires IsPrime(p) && a % p != 0
    ensures Power(a, e) % p == Power(a, e % (p - 1)) % p
  {
    var n: nat := p - 1;
    var q: nat, r: nat := e / n, e % n;
    var x, y := Power(Power(a, n), q), Power(a, r);
    assert Power(a, e) == x * y by {
      DivMod(e, n);
      PowerSplit(a, e, n, q, r);
    }
    assert x % p == 1 by {
      Fermat(p, a);
      PowerOneMod(Power(a, n), q, p);
    }
    ReduceStep(Power(a, e), x, y, p);
  }

  lemma DivMod(e: int, n: int)
    requires n > 0
    ensures e == n * (e / n) + e % n
  {
  }

  lemma PowerSplit(a: nat, e: nat, n: nat, q: nat, r: nat)
    requires e == n * q + r
    ensures Power(a, e) == Power(Power(a, n), q) * Power(a, r)
  {
    PowerAdd(a, n * q, r);
    PowerMul(a, n, q);
  }

  lemma ReduceStep(z: int, x: int, y: int, p: int)
    requires p > 0 && z == x * y && x % p == 1
    ensures z % p == y % p
  {
    ModMulLeft(x, y, p);
  }

  /** A power of something congruent to 1 is congruent to 1. */
  lemma PowerOneMod(f: nat, q: nat, p: nat)
    requires p >= 2 && f % p == 1
    ensures Power(f, q) % p == 1
  {
    PowerMod(f, q, p);
    PowerOfOne(q);
    assert Power(f % p, q) == 1;
    ModSmall(1, p);
  }
}

=== FILE: tests.dfy ===
/** The unit tests of `src/lib.rs`, as lemmas about concrete elements. */
module Tests {
  import opened Errors
  import opened Field
  import Lib
  import Fieldelement

  lemma NewExamples()
    ensures New(10, 13) == Ok(FieldElement(10, 13))
    ensures New(20, 13) == FieldError
  {
  }

  lemma EqExamples()
    ensures Eq(FieldElement(7, 13), FieldElement(7, 13))
    ensures !Eq(FieldElement(7, 13), FieldElement(6, 13))
    ensures Eq(FieldElement(5, 13), FieldElement(5, 17))
  {
  }

  lemma AddExamples()
    ensures Add(FieldElement(7, 13), FieldElement(12, 13)) == Ok(FieldElement(6, 13))
    ensures !Eq(Add(FieldElement(7, 13), FieldElement(6, 13)).value, FieldElement(12, 13))
    ensures Add(Add(FieldElement(17, 57), FieldElement(42, 57)).value, FieldElement(49, 57))
              == Ok(FieldElement(51, 57))
    ensures Add(FieldElement(7, 13), FieldElement(10, 19)) == Panicked(OrderMismatch)
  {
  }

  lemma SubExamples()
    ensures Sub(FieldElement(9, 57), FieldElement(29, 57)) == Ok(FieldElement(37, 57))
    ensures Sub(Sub(FieldElement(52, 57), FieldElement(30, 57)).value, FieldElement(38, 57))
              == Ok(FieldElement(41, 57))
    ensures Sub(FieldElement(9, 57), FieldElement(29, 46)) == Panicked(OrderMismatch)
  {
  }

  lemma MulExamples()
    ensures Mul(FieldElement(3, 13), FieldElement(12, 13)) == Ok(FieldElement(10, 13))
    ensures Mul(Mul(FieldElement(95, 97), FieldElement(45, 97)).value, FieldElement(31, 97))
              == Ok(FieldElement(23, 97))
    // the panic test already panics in `new(12, 10)`
    ensures New(12, 10) == FieldError
    ensures Mul(Mul(FieldElement(95, 97), FieldElement(45, 97)).value, FieldElement(31, 87))
              == Panicked(OrderMismatch)
  {
  }

  // Runs of the square-and-multiply loop used by the examples below.

  /** `3^3` modulo 13, one loop iteration per step. */
  lemma Loop3Pow3Mod13()
    ensures Loop(1, 3, 3, 13) == Ok(1)
  {
    assert Loop(1, 3, 3, 13) == Loop(3, 9, 1, 13);
    assert Loop(3, 9, 1, 13) == Loop(1, 3, 0, 13);
  }

  /** `7^17` modulo 19, one loop iteration per step. */
  lemma Loop7Pow17Mod19()
    ensures Loop(1, 7, 17, 19) == Ok(11)
  {
    assert Loop(1, 7, 17, 19) == Loop(7, 11, 8, 19);
    assert Loop(7, 11, 8, 19) == Loop(7, 7, 4, 19);
    assert Loop(7, 7, 4, 19) == Loop(7, 11, 2, 19);
    assert Loop(7, 11, 2, 19) == Loop(7, 7, 1, 19);
    assert Loop(7, 7, 1, 19) == Loop(11, 11, 0, 19);
  }

  /** `7^16` modulo 19, one loop iteration per step. */
  lemma Loop7Pow16Mod19()
    ensures Loop(1, 7, 16, 19) == Ok(7)
  {
    assert Loop(1, 7, 16, 19) == Loop(1, 11, 8, 19);
    assert Loop(1, 11, 8, 19) == Loop(1, 7, 4, 19);
    assert Loop(1, 7, 4, 19) == Loop(1, 11, 2, 19);
    assert Loop(1, 11, 2, 19) == Loop(1, 7, 1, 19);
    assert Loop(1, 7, 1, 19) == Loop(7, 11, 0, 19);
  }

  /** `5^17` modulo 19, one loop iteration per step. */
  lemma Loop5Pow17Mod19()
    ensures Loop(1, 5, 17, 19) == Ok(4)
  {
    assert Loop(1, 5, 17, 19) == Loop(5, 6, 8, 19);
    assert Loop(5, 6, 8, 19) == Loop(5, 17, 4, 19);
    assert Loop(5, 17, 4, 19) == Loop(5, 4, 2, 19);
    assert Loop(5, 4, 2, 19) == Loop(5, 16, 1, 19);
    assert Loop(5, 16, 1, 19) == Loop(4, 9, 0, 19);
  }

  /** `4^26` modulo 31, one loop iteration per step. */
  lemma Loop4Pow26Mod31()
    ensures Loop(1, 4, 26, 31) == Ok(4)
  {
    assert Loop(1, 4, 26, 31) == Loop(1, 16, 13, 31);
    assert Loop(1, 16, 13, 31) == Loop(16, 8, 6, 31);
    assert Loop(16, 8, 6, 31) == Loop(16, 2, 3, 31);
    assert Loop(16, 2, 3, 31) == Loop(1, 4, 1, 31);
    assert Loop(1, 4, 1, 31) == Loop(4, 16, 0, 31);
  }

  /** `24^29` modulo 31, one loop iteration per step. */
  lemma Loop24Pow29Mod31()
    ensures Loop(1, 24, 29, 31) == Ok(22)
  {
    assert Loop(1, 24, 29, 31) == Loop(24, 18, 14, 31);
    assert Loop(24, 18, 14, 31) == Loop(24, 14, 7, 31);
    assert Loop(24, 14, 7, 31) == Loop(26, 10, 3, 31);
    assert Loop(26, 10, 3, 31) == Loop(12, 7, 1, 31);
    assert Loop(12, 7, 1, 31) == Loop(22, 18, 0, 31);
  }

  lemma PowExamples()
    ensures Lib.Pow(FieldElement(3, 13), 3) == Ok(FieldElement(1, 13))
    ensures Mul(FieldElement(2, 19), Lib.Pow(FieldElement(7, 19), -1).value) == Ok(FieldElement(3, 19))
  {
    Loop3Pow3Mod13();
    Loop7Pow17Mod19();
  }

  lemma NegativePowExamples()
    ensures Mul(FieldElement(2, 19), Lib.Pow(FieldElement(7, 19), -2).value) == Ok(FieldElement(14, 19))
    ensures Mul(FieldElement(7, 19), Lib.Pow(FieldElement(5, 19), -1).value) == Ok(FieldElement(9, 19))
  {
    Loop7Pow16Mod19();
    Loop5Pow17Mod19();
  }

  lemma NegativePowExample31()
    ensures Mul(FieldElement(11, 31), Lib.Pow(FieldElement(4, 31), -4).value) == Ok(FieldElement(13, 31))
  {
    Loop4Pow26Mod31();
  }

  lemma DivExample1()
    ensures Lib.Div(FieldElement(3, 31), FieldElement(24, 31)) == Ok(FieldElement(4, 31))
    ensures Fieldelement.Div(FieldElement(3, 31), FieldElement(24, 31)) == Ok(FieldElement(4, 31))
  {
    Loop24Pow29Mod31();
  }

  lemma DivExample2()
    ensures Lib.Div(FieldElement(2, 19), FieldElement(7, 19)) == Ok(FieldElement(3, 19))
    ensures Fieldelement.Div(FieldElement(2, 19), FieldElement(7, 19)) == Ok(FieldElement(3, 19))
  {
    Loop7Pow17Mod19();
  }

  lemma DivExample3()
    ensures Lib.Div(FieldElement(7, 19), FieldElement(5, 19)) == Ok(FieldElement(9, 19))
    ensures Fieldelement.Div(FieldElement(7, 19), FieldElement(5, 19)) == Ok(FieldElement(9, 19))
  {
    Loop5Pow17Mod19();
  }
}
